=== FILE: README.md ===
# WordListKit password-list generator, modelled in Dafny

WordListKit generates candidate passwords and appends the new ones to a
wordlist file, `StormList.txt`. Candidates are random strings, dictionary
words, or names, each word or name followed by four digits. Startup loads
the existing wordlist into an in-memory seen-set and loads the dictionary
and names files as seed lists. One hundred goroutines then generate
candidates forever. Each candidate goes through `savePasswordToFile`, which
holds one mutex for its whole body. It skips a candidate already in the
set. Otherwise it appends the candidate and a line feed to the file, and it
adds the candidate to the set only when the write succeeded.

The model is functional. Verify all eight `.dfy` files together in one
`dafny verify` call: each file is one module, and the modules import each
other across files.

- `seqs.dfy` (`Seqs`): three facts about sequence concatenation that the
  proofs in the other modules call.
- `text.dfy` (`Text`): the whitespace class of Go's `unicode.IsSpace`,
  `strings.TrimSpace`, and `%04d` for values in `[0, 9999]`.
- `lines.dfy` (`Lines`): the wordlist as raw text, and how
  `bufio.Scanner`'s `ScanLines` splits it into lines.
- `loader.dfy` (`Loader`): `loadExistingPasswords`, `loadDictionary` and
  `loadNames`.
- `generators.dfy` (`Generators`): the random generator and the
  word/name-plus-suffix generator. Every `rand.Intn` result is a parameter
  constrained to its range.
- `dispatch.dfy` (`Dispatch`): the mode `switch` in `main`, the strategy
  `if` chain in each worker, and one generation step.
- `appender.dfy` (`Appender`): `savePasswordToFile` as one atomic
  transition of the pair (seen-set, file text), plus finite runs of such
  transitions. The open/write result of each save is a parameter.
- `pipeline.dfy` (`Pipeline`): startup, strategy launch and a finite
  stretch of worker iterations. It ends in the end-to-end dedup theorem.

A file is its text, not a list of lines, so the model writes exactly
`password + "\n"` as line 134 does. Reading back goes through the scanner
model. As a result, the reload round trip holds only for a file that is
empty or ends in a line feed. `Appender.UnterminatedFileMergesFirstAppend`
shows what happens otherwise: if the last line has no line feed, the first
append joins onto it.

The random alphabet is the literal on line 77 of `main.go`. It has 76
characters: 26 + 26 letters, 10 digits and 14 punctuation marks.
`Generators.AlphabetIsPlain` states the length.

## Model

| member | source | states |
|---|---|---|
| `Text.Trim` | main.go:48 | The trimmed line neither starts nor ends with whitespace and is no longer than the input. |
| `Text.TrimIsInfix` | main.go:48 | The trimmed line is a contiguous part of the input, and everything cut from either side is whitespace. |
| `Text.TrimOfPadded` | main.go:48 | Trimming is determined by that description: any trimmed string surrounded by any whitespace trims back to exactly itself. |
| `Text.TrimIdempotent` | main.go:48 | Trimming twice is the same as trimming once. |
| `Text.TrimEmptyIffBlank` | main.go:49-50 | A line trims to the empty string exactly when it is whitespace only, so exactly those lines are skipped. |
| `Text.TrimKeepsSingleLine` | main.go:48 | Trimming a line without a line feed yields a string without one. |
| `Text.Pad4` | main.go:88 | `%04d` of a value in [0, 9999] is four decimal digits whose value is that number. |
| `Text.Pad4Onto` | main.go:117-118 | Every four-digit string is the `%04d` rendering of the value it denotes, so the suffix ranges over all of `0000`-`9999`. |
| `Lines.ScanLines` | main.go:46-47 | The scanner yields tokens that never contain a line feed. |
| `Lines.ScanAppend` | main.go:134 | Appending `password + "\n"` to an empty or line-feed-terminated text makes the scanner yield exactly one more token, the password less any trailing carriage return. |
| `Lines.ScanJoin` | main.go:134 | Appending several lines, each with its line feed, scans back as the old tokens followed by exactly those lines, in order. |
| `Loader.Entries` | main.go:63-70 | The loaded list is no longer than the file and holds only non-empty trimmed strings. |
| `Loader.EntriesMatchSet` | main.go:47-51 | The in-order list and the set of non-empty trimmed lines hold the same strings, in both directions. |
| `Loader.EntriesAppend` | main.go:65-69 | Loading is line by line and keeps file order: the entries of two stretches of a file are the first's entries followed by the second's. |
| `Loader.EntriesOfLine` | main.go:101-105 | A whitespace-only line contributes nothing, and any other line contributes its trimmed form. |
| `Loader.EntriesAreEntries` | main.go:99-106 | Every loaded entry is a non-empty, trimmed, single-line string. |
| `Loader.LoadExisting` | main.go:38-54 | An unopenable wordlist leaves the set empty; otherwise the set holds exactly the loaded entries, and all of them are single-line trimmed strings. |
| `Loader.LoadCorpus` | main.go:56-111 | For both `loadDictionary` (lines 56-72) and `loadNames` (lines 92-111): an open failure is an error, and only an open failure is one; otherwise the corpus is the file's entries in file order, duplicates included, which is what `words[rand.Intn(len(words))]` indexes. It holds exactly the strings of the loaded set, each a single-line trimmed entry. |
| `Loader.ReloadFirstLine` | main.go:127-134 | An entry written with its line feed into an empty or newly created wordlist reloads as exactly that entry. |
| `Loader.ReloadAfterAppend` | main.go:47-51 | Reloading a terminated wordlist after appending an entry and its line feed gives the old set plus exactly that entry. |
| `Generators.Spell` | main.go:79-81 | One character per draw: character i is the character-set character at index draw i. |
| `Generators.RandomPassword` | main.go:75-83 | With minLen <= maxLen and draws in range, the length lies in [minLen, maxLen] when minLen >= 0, never exceeds maxLen, and every character is from the alphabet. |
| `Generators.RandomPasswordCoversRange` | main.go:76-81 | Every alphabet string whose length is in [minLen, maxLen] is produced by some in-range draws, so the generator reaches its whole range. |
| `Generators.AlphabetIsPlain` | main.go:77 | The alphabet has 76 characters, none of them whitespace or a line feed. |
| `Generators.RandomPasswordIsEntry` | main.go:75-83 | A random password with a positive minimum length is a non-empty trimmed single line. |
| `Generators.Suffixed` | main.go:86-90 | For a pick in range and 0 <= n <= 9999, the result is the picked word followed by four digits whose value is n, with length word length + 4. |
| `Generators.SuffixedCoversRange` | main.go:114-118 | Every name or word followed by any four digits is produced by some in-range draws. |
| `Generators.SuffixedSplits` | main.go:86-89 | Dropping the last four characters recovers the word, and the last four characters recover the number. |
| `Generators.SuffixedInjective` | main.go:86-89 | Two suffixed passwords are equal exactly when their seeds and their numbers are equal. |
| `Generators.SuffixedIsEntry` | main.go:116-118 | A word or name that is a loaded entry yields a suffixed password that is an entry too. |
| `Dispatch.ModeFlags` | main.go:187-201 | The mode switch never turns on both the dictionary flag and the names flag. |
| `Dispatch.Choose` | main.go:149-155 | The guard chain only picks a strategy whose generator can run: a non-empty corpus, or a valid length range. |
| `Dispatch.Select` | main.go:190-201 | The strategy chosen for any typed mode and any corpora can run. |
| `Dispatch.Generate` | main.go:149-155 | Random candidates meet the length and alphabet bounds. Word and name candidates are the picked seed followed by four digits with the drawn value. |
| `Dispatch.SelectCases` | main.go:190-201 | Mode "2" with words selects the word strategy, and nothing else does. Mode "3" with names selects the name strategy, and nothing else does. Every other input, including invalid modes and empty corpora, selects random with (12, 18). |
| `Appender.Save` | main.go:122-142 | A seen candidate is a Duplicate and changes nothing. A new one with a good open and write extends the set by it and the file by it plus a line feed, and nothing else. A failed open or write changes nothing. The set grows by 1 exactly when the candidate is recorded. |
| `Appender.RetryAfterFailure` | main.go:127-137 | After a failed open or write, resubmitting the same candidate with working I/O records it. |
| `Appender.SaveIdempotent` | main.go:126 | Once a candidate is in the set, every later submission of it is a Duplicate that leaves the store unchanged. |
| `Appender.Run` | main.go:122-142 | Over any sequence of saves there is one outcome per submission, and the file grows by exactly the recorded candidates, each with its line feed, in order. |
| `Appender.RunOutcomeIsSave` | main.go:122-142 | Outcome i of a run is what `savePasswordToFile` reports for submission i on the store the first i submissions left. |
| `Appender.RunRecordsRecordedOutcomes` | main.go:134-139 | The recorded candidates are exactly the submissions whose outcome is Recorded, in submission order. |
| `Appender.RunRecordsNew` | main.go:126-139 | The recorded candidates are pairwise distinct and none was seen before. The set grows by exactly them, and its size by their number. |
| `Appender.RunKeepsEveryWrite` | main.go:126-139 | Every submission whose open and write succeed has its candidate in the set after the run, recorded by that save or an earlier one. |
| `Appender.SameCandidateRecordedOnce` | main.go:123-139 | k submissions of one new candidate with working I/O record it exactly once, and the other k - 1 are Duplicates. |
| `Appender.SaveKeepsConsistent` | main.go:126-139 | Saving an entry keeps the file terminated, and reloading it still gives exactly the live seen-set. |
| `Appender.RunKeepsConsistent` | main.go:122-142 | Every sequence of entry submissions preserves that consistency. |
| `Appender.RunAppendsRecordedLines` | main.go:134 | After a run, the file scans as its old lines followed by exactly the recorded candidates. |
| `Appender.UnterminatedFileMergesFirstAppend` | main.go:127-134 | For any two distinct entries a and p: if the file is `a` with no line feed, saving p records it, but the file then reloads as the single entry a + p, which differs from the live set {a, p}. |
| `Pipeline.Startup` | main.go:37-52 | The workers start from the set loaded through `os.Open`, which is empty unless the file is readable, and from the text on disk, empty for an absent file. The store is consistent when the file is absent, or readable and terminated. |
| `Pipeline.UnreadableWordlistRepeatsEntry` | main.go:38-42 | A wordlist that exists but cannot be read starts with an empty set while its lines stay on disk: that store is not consistent, and saving an entry already in the file writes it a second time. |
| `Pipeline.CorpusOrEmpty` | main.go:167-177 | A corpus that fails to load becomes empty. A loaded corpus is handed to the workers unchanged: the file's entries in file order, duplicates included, all single-line trimmed strings. |
| `Pipeline.Launch` | main.go:167-201 | The launched strategy can run and produces only entries. It is the word strategy over the dictionary corpus exactly when mode "2" was typed and that corpus is non-empty, the name strategy over the names corpus exactly when mode "3" was typed and that corpus is non-empty, and otherwise the random strategy with lengths 12 to 18. |
| `Pipeline.GenerateIsEntry` | main.go:149-155 | Under a launched strategy, every candidate is a non-empty trimmed single line, so it reloads as itself. |
| `Pipeline.Submissions` | main.go:147-158 | Each worker iteration submits the candidate generated from its own draws, with its own I/O result, in order. |
| `Pipeline.Work` | main.go:147-158 | A finite stretch of worker iterations gives one outcome per iteration, each the save of that iteration's candidate on the store the earlier iterations left. The file grows by exactly the recorded candidates, and every candidate whose write succeeded is in the set afterwards. The recorded candidates are exactly the submissions whose save reported Recorded, in order, and the set grows by exactly them. |
| `Pipeline.WorkKeepsWordlistConsistent` | main.go:203-213 | From an absent wordlist, or a readable one ending in a line feed, after any number of iterations: the file scans as its old lines plus the recorded candidates; those are pairwise distinct and were not in the file before; reloading gives the live seen-set. |

## Left out

- Goroutines, `sync.Mutex` and `sync.WaitGroup` (main.go:203-213). Each save is one atomic step, because the mutex covers its whole body. Any interleaving of the workers is therefore one sequence of steps. Race freedom itself rests on the lock and is not verified.
- The unbounded worker loop (main.go:147-158). A run is a finite stretch of iterations of any length. Liveness is not modelled.
- File I/O. A file is its text. A dictionary or names file that `os.Open` cannot open is `Unopenable`, and the wordlist is absent, unreadable or readable. A failed open or write is a parameter of each save. A failed write is taken to leave the file unchanged, so partial writes are not modelled. The ignored result of `f.Close` is not modelled either.
- `bufio.Scanner` limits. The 64 KiB token limit, the ignored `scanner.Err()` in `loadExistingPasswords` and `loadDictionary`, and the `scanner.Err()` branch of `loadNames` (main.go:107-109) are not modelled. With scanner errors gone, `loadDictionary` and `loadNames` behave the same, and both are `Loader.LoadCorpus`.
- Pipeline.Startup: consistency is promised only for an absent wordlist or a readable one ending in a line feed. An unreadable wordlist that still holds lines breaks it, as `Pipeline.UnreadableWordlistRepeatsEntry` shows, and a readable one without a final line feed breaks it, as `Appender.UnterminatedFileMergesFirstAppend` shows.
- Go's bytes versus Dafny's characters. Go trims UTF-8 decoded runes; the model trims code points with the same whitespace set. Invalid UTF-8 is not modelled.
- `math/rand`, `rand.Seed` and the reseeding in `generateNamePassword` (main.go:115, 162). Each draw is a parameter within the range `rand.Intn` documents, and uniformity is not modelled.
- Console colours (`theme`), all printing, the interactive `fmt.Scanln`, and `getPaths` with its `os.Getwd` panic (main.go:19-35). The typed mode is a parameter of `Pipeline.Launch`.

=== FILE: appender.dfy ===
/** savePasswordToFile as one atomic transition of the pair (seen-set,
    wordlist text), and finite sequences of such transitions. The mutex held
    across the whole call makes every call one step, so an interleaving of
    workers is just a sequence of submissions. */
module Appender {
  import opened Text
  import opened Lines
  import opened Loader

  /** How the two I/O calls of one save turn out: os.OpenFile fails, or it
      succeeds and f.WriteString fails, or both succeed. */
  datatype Io = OpenFails | WriteFails | Writes

  /** What one save did. */
  datatype Outcome = Recorded | Duplicate | OpenFailed | WriteFailed

  /** The seen-set and the text of the backing wordlist. */
  datatype Store = Store(seen: set<string>, file: string)

  datatype Submission = Submission(candidate: string, io: Io)

  datatype Saved = Saved(store: Store, outcome: Outcome)

  /** savePasswordToFile. A candidate already seen is skipped without
      touching the file; a new one is written with its line feed and only
      then added to the set; a failed open or write changes nothing. */
  function Save(s: Store, p: string, io: Io): (r: Saved)
    ensures p in s.seen ==> r == Saved(s, Duplicate)
    ensures r.outcome == Recorded <==> p !in s.seen && io == Writes
    ensures r.outcome == Recorded ==> r.store.seen == s.seen + {p} && r.store.file == s.file + p + "\n"
    ensures r.outcome != Recorded ==> r.store == s
    ensures r.outcome == OpenFailed <==> p !in s.seen && io == OpenFails
    ensures r.outcome == WriteFailed <==> p !in s.seen && io == WriteFails
    ensures |r.store.seen| == |s.seen| + (if r.outcome == Recorded then 1 else 0)
  {
    if p in s.seen then Saved(s, Duplicate)
    else
      match io
      case OpenFails => Saved(s, OpenFailed)
      case WriteFails => Saved(s, WriteFailed)
      case Writes => Saved(Store(s.seen + {p}, s.file + p + "\n"), Recorded)
  }

  /** A failed save leaves the candidate unseen, so resubmitting it later
      with working I/O records it. */
  lemma RetryAfterFailure(s: Store, p: string, io: Io)
    requires p !in s.seen && io != Writes
    ensures Save(Save(s, p, io).store, p, Writes) == Saved(Store(s.seen + {p}, s.file + p + "\n"), Recorded)
  {
  }

  /** A save is idempotent: once a candidate is recorded, every later
      submission of it is a duplicate and leaves the store alone. */
  lemma SaveIdempotent(s: Store, p: string, io: Io, io': Io)
    ensures var t := Save(s, p, io).store;
            p in t.seen || io != Writes
    ensures var t := Save(s, p, io).store;
            p in t.seen ==> Save(t, p, io') == Saved(t, Duplicate)
  {
  }

  predicate Distinct(xs: seq<string>) {
    forall i, j :: 0 <= i < j < |xs| ==> xs[i] != xs[j]
  }

  /** What a sequence of saves produced: the final store, each save's
      outcome, and the candidates recorded, in order. */
  datatype Trace = Trace(final: Store, outcomes: seq<Outcome>, recorded: seq<string>)

  /** Applies the submissions one after another, as the mutex serialises
      them: one outcome per submission, and the text grows by exactly the
      recorded candidates, each with its line feed, in order. */
  function Run(s: Store, subs: seq<Submission>): (t: Trace)
    ensures |t.outcomes| == |subs| && |t.recorded| <= |subs|
    ensures t.final.file == s.file + JoinLines(t.recorded)
    decreases |subs|
  {
    if subs == [] then Trace(s, [], [])
    else
      var last := subs[|subs| - 1];
      var prior := Run(s, subs[..|subs| - 1]);
      var r := Save(prior.final, last.candidate, last.io);
      if r.outcome == Recorded then
        JoinLinesSnoc(s.file, prior.recorded, last.candidate);
        Trace(r.store, prior.outcomes + [r.outcome], prior.recorded + [last.candidate])
      else
        Trace(r.store, prior.outcomes + [r.outcome], prior.recorded)
  }

  /** The dedup guarantee of a run: the recorded candidates are pairwise
      distinct and none was seen before, and the set grows by exactly them,
      so its size grows by their number. */
  lemma {:induction false} RunRecordsNew(s: Store, subs: seq<Submission>)
    ensures var t := Run(s, subs);
            && t.final.seen == s.seen + (set x | x in t.recorded)
            && Distinct(t.recorded)
            && (forall x :: x in t.recorded ==> x !in s.seen)
            && |t.final.seen| == |s.seen| + |t.recorded|
    decreases |subs|
  {
    if subs != [] {
      var n := |subs| - 1;
      var prior := Run(s, subs[..n]);
      RunRecordsNew(s, subs[..n]);
      if Save(prior.final, subs[n].candidate, subs[n].io).outcome == Recorded {
        RecordStep(s, prior, subs[n].candidate);
      }
    }
  }

  /** No submission whose write succeeds is lost: its candidate is in the
      set after the run, whether this save or an earlier one recorded it. */
  lemma {:induction false} RunKeepsEveryWrite(s: Store, subs: seq<Submission>)
    ensures forall i :: 0 <= i < |subs| && subs[i].io == Writes ==> subs[i].candidate in Run(s, subs).final.seen
    decreases |subs|
  {
    if subs != [] {
      var n := |subs| - 1;
      var init := subs[..n];
      var prior := Run(s, init);
      RunKeepsEveryWrite(s, init);
      var r := Save(prior.final, subs[n].candidate, subs[n].io);
      assert Run(s, subs).final == r.store;
      assert prior.final.seen <= r.store.seen;
      forall i | 0 <= i < |subs| && subs[i].io == Writes
        ensures subs[i].candidate in r.store.seen
      {
        if i < n {
          assert subs[i] == init[i];
        }
      }
    }
  }

  /** One recording extends the run's facts by the new candidate. */
  lemma RecordStep(s: Store, prior: Trace, p: string)
    requires prior.final.seen == s.seen + (set x | x in prior.recorded)
    requires Distinct(prior.recorded)
    requires forall x :: x in prior.recorded ==> x !in s.seen
    requires p !in prior.final.seen
    ensures prior.final.seen + {p} == s.seen + (set x | x in prior.recorded + [p])
    ensures Distinct(prior.recorded + [p])
    ensures forall x :: x in prior.recorded + [p] ==> x !in s.seen
  {
    var rec := prior.recorded + [p];
    assert (set x | x in rec) == (set x | x in prior.recorded) + {p};
    assert forall i :: 0 <= i < |prior.recorded| ==> rec[i] == prior.recorded[i];
  }

  /** The candidates whose outcome is Recorded, in submission order. */
  function RecordedOf(subs: seq<Submission>, outcomes: seq<Outcome>): (r: seq<string>)
    requires |outcomes| == |subs|
    ensures |r| <= |subs|
  {
    if subs == [] then []
    else
      var n := |subs| - 1;
      RecordedOf(subs[..n], outcomes[..n]) + (if outcomes[n] == Recorded then [subs[n].candidate] else [])
  }

  /** Each outcome of a run is what Save reports for that submission on the
      store the earlier submissions left behind. */
  lemma {:induction false} RunOutcomeIsSave(s: Store, subs: seq<Submission>, i: nat)
    requires i < |subs|
    ensures Run(s, subs).outcomes[i] == Save(Run(s, subs[..i]).final, subs[i].candidate, subs[i].io).outcome
    decreases |subs|
  {
    var n := |subs| - 1;
    var init := subs[..n];
    var prior := Run(s, init);
    var r := Save(prior.final, subs[n].candidate, subs[n].io);
    var outs := Run(s, subs).outcomes;
    RunSnoc(s, subs);
    if i < n {
      assert outs[i] == prior.outcomes[i];
      assert prior.outcomes[i] == Save(Run(s, subs[..i]).final, subs[i].candidate, subs[i].io).outcome by {
        RunOutcomeIsSave(s, init, i);
        assert init[..i] == subs[..i] && init[i] == subs[i];
      }
    } else {
      assert subs[..i] == init;
    }
  }

  /** The last step of a run. */
  lemma RunSnoc(s: Store, subs: seq<Submission>)
    requires subs != []
    ensures var n := |subs| - 1;
            var prior := Run(s, subs[..n]);
            var r := Save(prior.final, subs[n].candidate, subs[n].io);
            && Run(s, subs).outcomes == prior.outcomes + [r.outcome]
            && Run(s, subs).final == r.store
            && |prior.outcomes| == n
  {
  }

  /** A run records exactly the submissions whose outcome is Recorded, in
      order. */
  lemma {:induction false} RunRecordsRecordedOutcomes(s: Store, subs: seq<Submission>)
    ensures Run(s, subs).recorded == RecordedOf(subs, Run(s, subs).outcomes)
    decreases |subs|
  {
    if subs != [] {
      var n := |subs| - 1;
      var t, prior := Run(s, subs), Run(s, subs[..n]);
      RunRecordsRecordedOutcomes(s, subs[..n]);
      assert t.outcomes[..n] == prior.outcomes;
    }
  }

  /** Submitting the same new candidate k times with working I/O -- the
      race of k workers producing it at once -- records it once and reports
      the other k - 1 submissions as duplicates. */
  lemma {:induction false} SameCandidateRecordedOnce(s: Store, p: string, k: nat)
    requires p !in s.seen && k >= 1
    ensures var t := Run(s, seq(k, _ => Submission(p, Writes)));
            && t.recorded == [p]
            && t.outcomes[0] == Recorded
            && (forall i :: 1 <= i < k ==> t.outcomes[i] == Duplicate)
            && t.final == Store(s.seen + {p}, s.file + p + "\n")
  {
    var subs := seq(k, _ => Submission(p, Writes));
    if k > 1 {
      SameCandidateRecordedOnce(s, p, k - 1);
      assert subs[..k - 1] == seq(k - 1, _ => Submission(p, Writes));
    } else {
      assert subs[..0] == [];
    }
  }

  /** The store agrees with its file: the file ends in a line feed (or is
      empty) and reloading it gives exactly the live seen-set. */
  predicate Consistent(s: Store) {
    Terminated(s.file) && PasswordSet(s.file) == s.seen
  }

  /** Saving a wordlist entry keeps the store consistent: after a successful
      save, reloading the file gives the live in-memory set. */
  lemma SaveKeepsConsistent(s: Store, p: string, io: Io)
    requires Consistent(s) && IsEntry(p)
    ensures Consistent(Save(s, p, io).store)
  {
    var r := Save(s, p, io);
    if r.outcome == Recorded {
      ReloadAfterAppend(s.file, p);
    }
  }

  /** Every run of entry submissions keeps a consistent store consistent. */
  lemma {:induction false} RunKeepsConsistent(s: Store, subs: seq<Submission>)
    requires Consistent(s)
    requires forall i :: 0 <= i < |subs| ==> IsEntry(subs[i].candidate)
    ensures Consistent(Run(s, subs).final)
    decreases |subs|
  {
    if subs != [] {
      var last := subs[|subs| - 1];
      RunKeepsConsistent(s, subs[..|subs| - 1]);
      SaveKeepsConsistent(Run(s, subs[..|subs| - 1]).final, last.candidate, last.io);
    }
  }

  /** The wordlist after a run scans back as the old lines followed by the
      recorded candidates: nothing is written twice and nothing else is
      written. */
  lemma RunAppendsRecordedLines(s: Store, subs: seq<Submission>)
    requires Terminated(s.file)
    requires forall i :: 0 <= i < |subs| ==> IsEntry(subs[i].candidate)
    ensures ScanLines(Run(s, subs).final.file) == ScanLines(s.file) + Run(s, subs).recorded
  {
    var t := Run(s, subs);
    forall i | 0 <= i < |t.recorded|
      ensures PlainLine(t.recorded[i])
    {
      RecordedAreSubmitted(s, subs, t.recorded[i]);
      var x := t.recorded[i];
      assert DropCR(x) == x;
    }
    ScanJoin(s.file, t.recorded);
  }

  /** Only submitted candidates are ever recorded. */
  lemma {:induction false} RecordedAreSubmitted(s: Store, subs: seq<Submission>, x: string)
    requires x in Run(s, subs).recorded
    ensures exists i :: 0 <= i < |subs| && subs[i].candidate == x
    decreases |subs|
  {
    var init := subs[..|subs| - 1];
    if x in Run(s, init).recorded {
      RecordedAreSubmitted(s, init, x);
      var i :| 0 <= i < |init| && init[i].candidate == x;
      assert subs[i].candidate == x;
    } else {
      assert subs[|subs| - 1].candidate == x;
    }
  }

  /** A wordlist whose last line lacks its line feed breaks the round trip:
      the first append joins that line, so the reloaded set holds the joined
      string and neither the old line nor the new candidate. */
  lemma UnterminatedFileMergesFirstAppend(a: string, p: string)
    requires IsEntry(a) && IsEntry(p) && a != p
    ensures var r := Save(Store({a}, a), p, Writes);
            && r.outcome == Recorded
            && r.store.seen == {a, p}
            && PasswordSet(r.store.file) == {a + p}
            && PasswordSet(r.store.file) != r.store.seen
  {
    var merged := a + p;
    var r := Save(Store({a}, a), p, Writes);
    assert r.outcome == Recorded && r.store == Store({a} + {p}, merged + "\n");
    assert {a} + {p} == {a, p};
    assert PasswordSet(merged + "\n") == {merged} by {
      ConcatIsEntry(a, p);
      ReloadFirstLine(merged);
    }
    assert {merged} != {a, p} by {
      assert |merged| > |a|;
    }
  }
}

=== FILE: dispatch.dfy ===
/** Strategy selection: the mode switch in main, the guard chain each worker
    evaluates before generating, and one generation step under the chosen
    strategy. */
module Dispatch {
  import opened Text
  import opened Generators

  datatype Strategy =
    | UniformRandom(minLen: int, maxLen: int)
    | DictionaryWord(words: seq<string>)
    | PersonName(names: seq<string>)

  /** The random strategy every fallback uses: 12 to 18 characters. */
  const Fallback: Strategy := UniformRandom(12, 18)

  /** The flags main derives from the typed mode: (useReal, useNames). */
  datatype Flags = Flags(useReal: bool, useNames: bool)

  /** The switch over the typed mode. "1" and any unrecognised input leave
      both flags off. */
  function ModeFlags(mode: string): (f: Flags)
    ensures !(f.useReal && f.useNames)
  {
    match mode
    case "2" => Flags(true, false)
    case "3" => Flags(false, true)
    case _ => Flags(false, false)
  }

  /** The guard chain of continuousPasswordGenerator: a seed strategy only
      when its flag is on and its corpus is non-empty, else the fallback. */
  function Choose(f: Flags, realWords: seq<string>, names: seq<string>): (s: Strategy)
    ensures Usable(s)
  {
    if f.useReal && |realWords| > 0 then DictionaryWord(realWords)
    else if f.useNames && |names| > 0 then PersonName(names)
    else Fallback
  }

  /** The strategy a run uses for a typed mode and the loaded corpora. */
  function Select(mode: string, realWords: seq<string>, names: seq<string>): (s: Strategy)
    ensures Usable(s)
  {
    Choose(ModeFlags(mode), realWords, names)
  }

  /** The generator can run without panicking: rand.Intn gets a positive
      bound for the length range and for the corpus index. */
  predicate Usable(s: Strategy) {
    match s
    case UniformRandom(minLen, maxLen) => minLen <= maxLen
    case DictionaryWord(words) => |words| > 0
    case PersonName(names) => |names| > 0
  }

  /** The outcomes of every rand.Intn call one generation may make; a
      strategy reads only the draws it needs. */
  datatype Draws = Draws(lenDraw: int, charDraws: seq<int>, pick: int, number: int)

  /** The draws lie in the ranges their rand.Intn calls produce. */
  predicate Fits(s: Strategy, d: Draws) {
    match s
    case UniformRandom(minLen, maxLen) => RandomDrawsFit(minLen, maxLen, d.lenDraw, d.charDraws)
    case DictionaryWord(words) => 0 <= d.pick < |words| && 0 <= d.number <= 9999
    case PersonName(names) => 0 <= d.pick < |names| && 0 <= d.number <= 9999
  }

  /** One candidate under the strategy. */
  function Generate(s: Strategy, d: Draws): (p: string)
    requires Usable(s) && Fits(s, d)
    ensures s.UniformRandom? && 0 <= s.minLen ==> s.minLen <= |p| <= s.maxLen
    ensures s.UniformRandom? ==> forall i :: 0 <= i < |p| ==> p[i] in Alphabet
    ensures !s.UniformRandom? ==> |p| >= 4 && AllDigits(p[|p| - 4..]) && DecimalValue(p[|p| - 4..]) == d.number
    ensures s.DictionaryWord? ==> p[..|p| - 4] == s.words[d.pick]
    ensures s.PersonName? ==> p[..|p| - 4] == s.names[d.pick]
  {
    match s
    case UniformRandom(minLen, maxLen) => RandomPassword(minLen, maxLen, d.lenDraw, d.charDraws)
    case DictionaryWord(words) => Suffixed(words, d.pick, d.number)
    case PersonName(names) => Suffixed(names, d.pick, d.number)
  }

  /** Which strategy a mode selects, in both directions: the word strategy
      exactly for mode "2" with words loaded, the name strategy exactly for
      mode "3" with names loaded, and the 12-to-18 random fallback for every
      other input, including a valid mode whose corpus is empty. */
  lemma SelectCases(mode: string, realWords: seq<string>, names: seq<string>)
    ensures Select(mode, realWords, names) == DictionaryWord(realWords)
            <==> mode == "2" && |realWords| > 0
    ensures Select(mode, realWords, names) == PersonName(names)
            <==> mode == "3" && |names| > 0
    ensures Select(mode, realWords, names) == Fallback
            <==> !(mode == "2" && |realWords| > 0) && !(mode == "3" && |names| > 0)
  {
  }
}

=== FILE: generators.dfy ===
/** The three candidate generators. Every random draw is an explicit
    parameter, constrained to the range the corresponding rand.Intn call
    produces. */
module Generators {
  import opened Text

  /** The fixed character set of random passwords, one string literal in the
      program, written here as its four runs: 26 lower-case and 26 upper-case
      letters, 10 digits and 14 punctuation marks. */
  const Alphabet: string := Lower + Upper + Digits + Punctuation

  const Lower: string := "abcdefghijklmnopqrstuvwxyz"
  const Upper: string := "ABCDEFGHIJKLMNOPQRSTUVWXYZ"
  const Digits: string := "0123456789"
  const Punctuation: string := "!@#$%^&*()-_=+"

  /** A draw of rand.Intn(bound) for every character position. */
  predicate DrawsBelow(bound: int, draws: seq<int>) {
    forall i :: 0 <= i < |draws| ==> 0 <= draws[i] < bound
  }

  /** The characters of `charset` the draws select, in draw order. */
  function Spell(charset: string, draws: seq<int>): (r: string)
    requires DrawsBelow(|charset|, draws)
    ensures |r| == |draws|
    ensures forall i :: 0 <= i < |r| ==> r[i] == charset[draws[i]]
  {
    if draws == [] then []
    else Spell(charset, draws[..|draws| - 1]) + [charset[draws[|draws| - 1]]]
  }

  /** The number of characters generateRandomPassword writes for a length
      draw: the loop runs no times for a negative length. */
  function RandomLength(minLen: int, lenDraw: int): nat {
    if lenDraw + minLen < 0 then 0 else lenDraw + minLen
  }

  /** The draws generateRandomPassword makes: rand.Intn(maxLen - minLen + 1)
      for the length, which needs a positive bound, then one character draw
      per position. */
  predicate RandomDrawsFit(minLen: int, maxLen: int, lenDraw: int, charDraws: seq<int>) {
    && minLen <= maxLen
    && 0 <= lenDraw <= maxLen - minLen
    && |charDraws| == RandomLength(minLen, lenDraw)
    && DrawsBelow(|Alphabet|, charDraws)
  }

  /** generateRandomPassword. */
  function RandomPassword(minLen: int, maxLen: int, lenDraw: int, charDraws: seq<int>): (r: string)
    requires RandomDrawsFit(minLen, maxLen, lenDraw, charDraws)
    ensures 0 <= minLen ==> minLen <= |r| <= maxLen
    ensures |r| <= (if maxLen < 0 then 0 else maxLen)
    ensures forall i :: 0 <= i < |r| ==> r[i] in Alphabet
  {
    Spell(Alphabet, charDraws)
  }

  /** Position of the first occurrence of `c` in `s`. */
  function IndexOf(s: string, c: char): (k: nat)
    requires c in s
    ensures k < |s| && s[k] == c
  {
    if s[0] == c then 0 else 1 + IndexOf(s[1..], c)
  }

  /** Draws that spell `s` from `charset`, one per character. */
  function DrawsFor(charset: string, s: string): (draws: seq<int>)
    requires forall i :: 0 <= i < |s| ==> s[i] in charset
    ensures |draws| == |s| && DrawsBelow(|charset|, draws)
    ensures forall i :: 0 <= i < |s| ==> charset[draws[i]] == s[i]
  {
    if s == [] then [] else DrawsFor(charset, s[..|s| - 1]) + [IndexOf(charset, s[|s| - 1])]
  }

  /** Every string over the alphabet whose length lies in [minLen, maxLen]
      is a possible random password: the generator covers its whole range. */
  lemma {:induction false} RandomPasswordCoversRange(minLen: int, maxLen: int, s: string)
    requires 0 <= minLen <= |s| <= maxLen
    requires forall i :: 0 <= i < |s| ==> s[i] in Alphabet
    ensures RandomDrawsFit(minLen, maxLen, |s| - minLen, DrawsFor(Alphabet, s))
    ensures RandomPassword(minLen, maxLen, |s| - minLen, DrawsFor(Alphabet, s)) == s
  {
    var r := RandomPassword(minLen, maxLen, |s| - minLen, DrawsFor(Alphabet, s));
    assert forall i :: 0 <= i < |s| ==> r[i] == s[i];
  }

  /** No alphabet character is whitespace, so a random password needs no
      trimming and never spans two lines. */
  lemma AlphabetIsPlain()
    ensures |Alphabet| == 76
    ensures forall c :: c in Alphabet ==> !IsSpace(c) && c != '\n'
  {
    AlphabetIsGraphic();
  }

  lemma AlphabetIsGraphic()
    ensures forall c :: c in Alphabet ==> '!' <= c <= 'z'
  {
    RunIsGraphic(Lower, 'a', 'z');
    RunIsGraphic(Upper, 'A', 'Z');
    RunIsGraphic(Digits, '0', '9');
    RunIsGraphic(Punctuation, '!', '_');
  }

  /** Trigger helper: turns the index form of a range fact about a literal
      into the membership form that the alphabet lemmas use. */
  lemma {:induction false} RunIsGraphic(s: string, lo: char, hi: char)
    requires forall i :: 0 <= i < |s| ==> lo <= s[i] <= hi
    ensures forall c :: c in s ==> lo <= c <= hi
  {
  }

  /** A non-empty random password is a wordlist entry. */
  lemma RandomPasswordIsEntry(minLen: int, maxLen: int, lenDraw: int, charDraws: seq<int>)
    requires RandomDrawsFit(minLen, maxLen, lenDraw, charDraws)
    requires 1 <= minLen
    ensures IsEntry(RandomPassword(minLen, maxLen, lenDraw, charDraws))
  {
    var r := RandomPassword(minLen, maxLen, lenDraw, charDraws);
    AlphabetIsPlain();
    assert forall i :: 0 <= i < |r| ==> !IsSpace(r[i]) && r[i] != '\n';
  }

  /** generateRealPassword and generateNamePassword: the picked seed
      followed by the number as four zero-padded digits. */
  function Suffixed(seeds: seq<string>, pick: int, number: int): (r: string)
    requires 0 <= pick < |seeds| && 0 <= number <= 9999
    ensures |r| == |seeds[pick]| + 4
    ensures r[..|seeds[pick]|] == seeds[pick]
    ensures AllDigits(r[|r| - 4..]) && DecimalValue(r[|r| - 4..]) == number
  {
    var r := seeds[pick] + Pad4(number);
    assert r[|r| - 4..] == Pad4(number);
    r
  }

  /** Every seed followed by any four digits is a possible suffixed password. */
  lemma SuffixedCoversRange(seeds: seq<string>, pick: int, digits: string)
    requires 0 <= pick < |seeds| && |digits| == 4 && AllDigits(digits)
    ensures DecimalValue(digits) <= 9999
    ensures Suffixed(seeds, pick, DecimalValue(digits)) == seeds[pick] + digits
  {
    Pad4Onto(digits);
  }

  /** A suffixed password splits back into its seed and its number. */
  lemma SuffixedSplits(seeds: seq<string>, pick: int, number: int)
    requires 0 <= pick < |seeds| && 0 <= number <= 9999
    ensures var r := Suffixed(seeds, pick, number);
            r[..|r| - 4] == seeds[pick] && DecimalValue(r[|r| - 4..]) == number
  {
  }

  /** Two suffixed passwords are equal exactly when their seeds and their
      numbers are: distinct (seed, number) pairs never collide. */
  lemma SuffixedInjective(seeds: seq<string>, i: int, n: int, j: int, m: int)
    requires 0 <= i < |seeds| && 0 <= n <= 9999
    requires 0 <= j < |seeds| && 0 <= m <= 9999
    ensures Suffixed(seeds, i, n) == Suffixed(seeds, j, m) <==> seeds[i] == seeds[j] && n == m
  {
    if Suffixed(seeds, i, n) == Suffixed(seeds, j, m) {
      SuffixedSplits(seeds, i, n);
      SuffixedSplits(seeds, j, m);
    }
  }

  /** A suffixed password built from a wordlist-style seed is itself a
      wordlist entry: it starts with the seed's first character and ends in
      a digit. */
  lemma SuffixedIsEntry(seeds: seq<string>, pick: int, number: int)
    requires 0 <= pick < |seeds| && 0 <= number <= 9999
    requires IsEntry(seeds[pick])
    ensures IsEntry(Suffixed(seeds, pick, number))
  {
    var w, d := seeds[pick], Pad4(number);
    var r := Suffixed(seeds, pick, number);
    assert r == w + d;
    assert r[0] == w[0];
    assert r[|r| - 1] == d[3];
    forall k | 0 <= k < |r|
      ensures r[k] != '\n'
    {
      if k < |w| {
        assert r[k] == w[k];
      } else {
        assert r[k] == d[k - |w|];
      }
    }
  }
}

=== FILE: lines.dfy ===
/** The wordlist on disk as raw text, and how bufio.Scanner's default
    ScanLines splits it: at every line feed, dropping one carriage return
    that ends a line, with a final unterminated fragment counted as a line. */
module Lines {
  import opened Text
  import opened Seqs

  /** Empty, or ends in a line feed: an append starts a fresh line. */
  predicate Terminated(c: string) {
    c == [] || c[|c| - 1] == '\n'
  }

  /** Removes one trailing carriage return, if there is one. */
  function DropCR(l: string): (r: string)
    ensures r == l || (l == r + "\r")
    ensures |l| > 0 && l[|l| - 1] != '\r' ==> r == l
  {
    if |l| > 0 && l[|l| - 1] == '\r' then l[..|l| - 1] else l
  }

  /** Index of the first line feed in `c`, or |c| when there is none. */
  function LineEnd(c: string): (i: nat)
    ensures i <= |c|
    ensures forall k :: 0 <= k < i ==> c[k] != '\n'
    ensures i < |c| ==> c[i] == '\n'
  {
    if c == [] || c[0] == '\n' then 0 else 1 + LineEnd(c[1..])
  }

  /** The tokens bufio.ScanLines yields for the whole of `c`. */
  function ScanLines(c: string): (lines: seq<string>)
    ensures forall i :: 0 <= i < |lines| ==> SingleLine(lines[i])
    decreases |c|
  {
    if c == [] then []
    else
      var e := LineEnd(c);
      if e == |c| then [DropCR(c)]
      else [DropCR(c[..e])] + ScanLines(c[e + 1..])
  }

  /** The file text for `lines`, each written as the line followed by "\n". */
  function JoinLines(lines: seq<string>): string {
    if lines == [] then []
    else JoinLines(lines[..|lines| - 1]) + lines[|lines| - 1] + "\n"
  }

  lemma JoinLinesSnoc(c: string, init: seq<string>, l: string)
    ensures c + JoinLines(init + [l]) == c + JoinLines(init) + l + "\n"
  {
    assert (init + [l])[..|init|] == init;
  }

  lemma TerminatedAfterJoin(c: string, lines: seq<string>)
    requires Terminated(c)
    ensures Terminated(c + JoinLines(lines))
  {
    var j := JoinLines(lines);
    if j != [] {
      assert (c + j)[|c + j| - 1] == j[|j| - 1];
    }
  }

  /** Appending one line and its line feed to a terminated text makes the
      scanner yield exactly one more token, the line without a trailing CR. */
  lemma {:induction false} ScanAppend(c: string, l: string)
    requires Terminated(c) && SingleLine(l)
    ensures ScanLines(c + l + "\n") == ScanLines(c) + [DropCR(l)]
    decreases |c|
  {
    var x := c + l + "\n";
    if c == [] {
      assert x == l + "\n";
      assert x[|l|] == '\n';
      assert LineEnd(x) == |l|;
      assert x[..|l|] == l;
      assert x[|l| + 1..] == [];
      assert ScanLines(x) == [DropCR(l)] + [];
      AppendEmpty([DropCR(l)]);
    } else {
      var e := LineEnd(c);
      assert e < |c|;
      assert x[e] == '\n';
      assert LineEnd(x) == e;
      assert x[..e] == c[..e];
      var rest := c[e + 1..];
      assert x[e + 1..] == rest + l + "\n";
      assert Terminated(rest);
      ScanAppend(rest, l);
      var head := [DropCR(c[..e])];
      assert ScanLines(x) == head + ScanLines(rest + l + "\n");
      assert ScanLines(c) == head + ScanLines(rest);
      AppendAssoc(head, ScanLines(rest), [DropCR(l)]);
    }
  }

  /** A text of one line and its line feed scans as that one line. */
  lemma ScanOneLine(l: string)
    requires SingleLine(l)
    ensures ScanLines(l + "\n") == [DropCR(l)]
  {
    assert [] + l + "\n" == l + "\n";
    ScanAppend([], l);
    assert ScanLines([]) == [];
  }

  /** A line the scanner gives back unchanged once it is written out. */
  predicate PlainLine(l: string) {
    SingleLine(l) && DropCR(l) == l
  }

  /** Writing lines one after another onto a terminated text and scanning it
      back yields the old tokens followed by exactly the written lines, as
      long as no line holds a line feed or ends in a carriage return. */
  lemma {:induction false} ScanJoin(c: string, lines: seq<string>)
    requires Terminated(c)
    requires forall i :: 0 <= i < |lines| ==> PlainLine(lines[i])
    ensures ScanLines(c + JoinLines(lines)) == ScanLines(c) + lines
    decreases |lines|
  {
    if lines == [] {
      assert c + [] == c;
    } else {
      var init := lines[..|lines| - 1];
      assert forall i :: 0 <= i < |init| ==> init[i] == lines[i];
      ScanJoin(c, init);
      ScanJoinStep(c, lines);
    }
  }

  /** The inductive step of ScanJoin: one more written line. */
  lemma ScanJoinStep(c: string, lines: seq<string>)
    requires Terminated(c) && lines != [] && PlainLine(lines[|lines| - 1])
    requires ScanLines(c + JoinLines(lines[..|lines| - 1])) == ScanLines(c) + lines[..|lines| - 1]
    ensures ScanLines(c + JoinLines(lines)) == ScanLines(c) + lines
  {
    var init, l := lines[..|lines| - 1], lines[|lines| - 1];
    var c' := c + JoinLines(init);
    assert c + JoinLines(lines) == c' + l + "\n" by {
      assert JoinLines(lines) == JoinLines(init) + l + "\n";
      AppendAssoc(c, JoinLines(init) + l, "\n");
      AppendAssoc(c, JoinLines(init), l);
    }
    TerminatedAfterJoin(c, init);
    ScanAppend(c', l);
    assert DropCR(l) == l;
    assert ScanLines(c') + [l] == ScanLines(c) + lines by {
      SnocSplit(lines);
      AppendAssoc(ScanLines(c), init, [l]);
    }
  }
}

=== FILE: loader.dfy ===
/** The three startup loaders: the wordlist into the seen-set, and the
    dictionary and names files into ordered seed corpora. Each reads the file
    line by line, trims surrounding whitespace and skips lines left empty. */
module Loader {
  import opened Text
  import opened Lines

  /** The result of opening a file: it could not be opened, or its text. */
  datatype FileRead = Unopenable | Opened(content: string)

  datatype Option<T> = None | Some(value: T)

  /** The filtering loop the loaders share: every line trimmed, blank ones
      dropped, the rest kept in file order. */
  function Entries(lines: seq<string>): (r: seq<string>)
    ensures |r| <= |lines|
    ensures forall i :: 0 <= i < |r| ==> r[i] != [] && Trimmed(r[i])
  {
    if lines == [] then []
    else
      var w := Trim(lines[|lines| - 1]);
      Entries(lines[..|lines| - 1]) + (if w != [] then [w] else [])
  }

  /** Every line trimmed, nothing dropped. */
  function TrimAll(lines: seq<string>): (r: seq<string>)
    ensures |r| == |lines|
    ensures forall i :: 0 <= i < |r| ==> r[i] == Trim(lines[i])
  {
    if lines == [] then [] else TrimAll(lines[..|lines| - 1]) + [Trim(lines[|lines| - 1])]
  }

  /** The non-empty strings of a sequence, as a set. */
  function NonEmpty(t: seq<string>): set<string> {
    set x | x in t && x != []
  }

  lemma NonEmptySnoc(t: seq<string>, w: string)
    ensures NonEmpty(t + [w]) == NonEmpty(t) + (if w != [] then {w} else {})
  {
  }

  /** Reference definition of what a load collects: the non-empty trimmed
      forms of the lines, irrespective of order and repetition. */
  function EntrySet(lines: seq<string>): set<string> {
    NonEmpty(TrimAll(lines))
  }

  /** The seen-set a wordlist text loads to. */
  function PasswordSet(content: string): set<string> {
    EntrySet(ScanLines(content))
  }

  lemma EntrySetSnoc(lines: seq<string>, l: string)
    ensures EntrySet(lines + [l]) == EntrySet(lines) + (if Trim(l) != [] then {Trim(l)} else {})
  {
    var ls := lines + [l];
    assert TrimAll(ls) == TrimAll(lines) + [Trim(l)] by {
      assert ls[..|lines|] == lines;
    }
    NonEmptySnoc(TrimAll(lines), Trim(l));
  }

  /** The ordered list and the reference set hold the same strings. */
  lemma {:induction false} EntriesMatchSet(lines: seq<string>)
    ensures forall x :: x in Entries(lines) <==> x in EntrySet(lines)
    decreases |lines|
  {
    if lines != [] {
      var init, l := lines[..|lines| - 1], lines[|lines| - 1];
      assert lines == init + [l];
      EntriesMatchSet(init);
      EntrySetSnoc(init, l);
    }
  }

  /** The filter works line by line: loading two stretches of a file one
      after the other gives the entries of the first, then of the second. */
  lemma {:induction false} EntriesAppend(a: seq<string>, b: seq<string>)
    ensures Entries(a + b) == Entries(a) + Entries(b)
    decreases |b|
  {
    if b == [] {
      assert a + b == a;
    } else {
      var init, l := b[..|b| - 1], b[|b| - 1];
      assert (a + b)[..|a + b| - 1] == a + init;
      assert (a + b)[|a + b| - 1] == l;
      EntriesAppend(a, init);
      var w := Trim(l);
      var extra := if w != [] then [w] else [];
      assert Entries(a + b) == Entries(a) + Entries(init) + extra;
      assert Entries(b) == Entries(init) + extra;
    }
  }

  /** One line contributes its trimmed form, or nothing if it is blank. */
  lemma EntriesOfLine(l: string)
    ensures AllSpace(l) ==> Entries([l]) == []
    ensures !AllSpace(l) ==> Entries([l]) == [Trim(l)]
  {
    assert [l][..0] == [];
    TrimEmptyIffBlank(l);
  }

  /** Every entry loaded from scanned text is a single trimmed non-empty line. */
  lemma {:induction false} EntriesAreEntries(lines: seq<string>)
    requires forall i :: 0 <= i < |lines| ==> SingleLine(lines[i])
    ensures forall i :: 0 <= i < |Entries(lines)| ==> IsEntry(Entries(lines)[i])
    decreases |lines|
  {
    if lines != [] {
      var init, l := lines[..|lines| - 1], lines[|lines| - 1];
      EntriesAreEntries(init);
      TrimKeepsSingleLine(l);
    }
  }

  /** loadExistingPasswords: a wordlist that cannot be opened leaves the set
      empty; otherwise the set holds exactly the loaded entries. */
  function LoadExisting(f: FileRead): (seen: set<string>)
    ensures f.Unopenable? ==> seen == {}
    ensures f.Opened? ==> forall x :: x in seen <==> x in Entries(ScanLines(f.content))
    ensures forall x :: x in seen ==> IsEntry(x)
  {
    match f
    case Unopenable => {}
    case Opened(content) =>
      var lines := ScanLines(content);
      EntriesMatchSet(lines);
      EntriesAreEntries(lines);
      PasswordSet(content)
  }

  /** loadDictionary and loadNames: an error when the file cannot be opened,
      otherwise the entries in file order. */
  function LoadCorpus(f: FileRead): (r: Option<seq<string>>)
    ensures r.None? <==> f.Unopenable?
    ensures f.Opened? ==> r == Some(Entries(ScanLines(f.content)))
    ensures r.Some? ==> forall x :: x in r.value <==> x in PasswordSet(f.content)
    ensures r.Some? ==> forall i :: 0 <= i < |r.value| ==> IsEntry(r.value[i])
  {
    match f
    case Unopenable => None
    case Opened(content) =>
      var lines := ScanLines(content);
      EntriesMatchSet(lines);
      EntriesAreEntries(lines);
      Some(Entries(lines))
  }

  /** Reload round trip: appending an entry and its line feed to a
      terminated wordlist makes the reloaded set grow by exactly that entry. */
  lemma ReloadAfterAppend(c: string, p: string)
    requires Terminated(c) && IsEntry(p)
    ensures PasswordSet(c + p + "\n") == PasswordSet(c) + {p}
  {
    assert DropCR(p) == p;
    ScanAppend(c, p);
    EntrySetSnoc(ScanLines(c), p);
    TrimOfTrimmed(p);
  }

  /** An empty wordlist loads to the empty set. */
  lemma EmptyLoadsNothing()
    ensures PasswordSet([]) == {}
  {
    assert ScanLines([]) == [];
    assert TrimAll([]) == [];
  }

  /** The first line written to an empty wordlist reloads as itself. */
  lemma ReloadFirstLine(p: string)
    requires IsEntry(p)
    ensures PasswordSet(p + "\n") == {p}
  {
    assert [] + p + "\n" == p + "\n";
    ReloadAfterAppend([], p);
    EmptyLoadsNothing();
  }
}

=== FILE: pipeline.dfy ===
/** The program end to end: startup loads the wordlist and the two corpora,
    the typed mode fixes the strategy, and the workers' generate-and-save
    iterations, serialised by the mutex, form one sequence of steps. */
module Pipeline {
  import opened Text
  import opened Lines
  import opened Loader
  import opened Generators
  import opened Dispatch
  import opened Appender

  /** What main finds at the wordlist path: nothing, a file os.Open cannot
      read (a write-only one, say) that still holds text the appends extend,
      or a readable file. */
  datatype Wordlist = Absent | Unreadable(content: string) | Readable(content: string)

  /** os.Open on the wordlist: only a readable file opens. */
  function OpenForReading(w: Wordlist): (f: FileRead)
    ensures f.Opened? <==> w.Readable?
    ensures f.Opened? ==> f.content == w.content
  {
    match w
    case Readable(content) => Opened(content)
    case _ => Unopenable
  }

  /** The text the appends of savePasswordToFile extend: O_CREATE starts an
      absent file empty, and O_WRONLY reaches an unreadable one. */
  function TextOnDisk(w: Wordlist): string {
    match w
    case Absent => []
    case Unreadable(content) => content
    case Readable(content) => content
  }

  /** The wordlists the program starts from safely: absent, or readable and
      ending in a line feed. */
  predicate SafeStart(w: Wordlist) {
    w.Absent? || (w.Readable? && Terminated(w.content))
  }

  /** The store main starts the workers with: the set loadExistingPasswords
      builds, and the text on disk. */
  function Startup(w: Wordlist): (s: Store)
    ensures s.seen == LoadExisting(OpenForReading(w))
    ensures !w.Readable? ==> s.seen == {}
    ensures w.Absent? ==> s.file == []
    ensures !w.Absent? ==> s.file == w.content
    ensures SafeStart(w) ==> Consistent(s)
  {
    Store(LoadExisting(OpenForReading(w)), TextOnDisk(w))
  }

  /** A wordlist that exists but cannot be read starts the set empty while
      its lines stay on disk, so a candidate already in the file is written
      to it again: the startup store is not consistent, and the file then
      holds the same entry twice. */
  lemma UnreadableWordlistRepeatsEntry(p: string)
    requires IsEntry(p)
    ensures var s := Startup(Unreadable(p + "\n"));
            var r := Save(s, p, Writes);
            && !Consistent(s)
            && r.outcome == Recorded
            && ScanLines(r.store.file) == [p, p]
  {
    var one := p + "\n";
    var s := Startup(Unreadable(one));
    assert s == Store({}, one);
    var r := Save(s, p, Writes);
    assert r.outcome == Recorded && r.store.file == one + p + "\n";
    assert ScanLines(r.store.file) == [p, p] by {
      ScanOneLine(p);
      ScanAppend(one, p);
      assert DropCR(p) == p;
    }
    assert !Consistent(s) by {
      ReloadFirstLine(p);
    }
  }

  /** main's handling of a corpus load error: the corpus becomes empty. */
  function CorpusOrEmpty(f: FileRead): (items: seq<string>)
    ensures f.Unopenable? ==> items == []
    ensures f.Opened? ==> items == Entries(ScanLines(f.content))
    ensures f.Opened? ==> forall x :: x in items <==> x in PasswordSet(f.content)
    ensures forall i :: 0 <= i < |items| ==> IsEntry(items[i])
  {
    match LoadCorpus(f)
    case None => []
    case Some(items) => items
  }

  /** Every candidate the strategy can produce is a wordlist entry: the
      random lengths are positive and every seed is a loaded entry. */
  predicate Sound(s: Strategy) {
    match s
    case UniformRandom(minLen, _) => 1 <= minLen
    case DictionaryWord(words) => forall i :: 0 <= i < |words| ==> IsEntry(words[i])
    case PersonName(names) => forall i :: 0 <= i < |names| ==> IsEntry(names[i])
  }

  /** The strategy main hands every worker. */
  function Launch(mode: string, dictionary: FileRead, names: FileRead): (s: Strategy)
    ensures Usable(s) && Sound(s)
    ensures s.DictionaryWord? <==> mode == "2" && |CorpusOrEmpty(dictionary)| > 0
    ensures s.PersonName? <==> mode == "3" && |CorpusOrEmpty(names)| > 0
    ensures s.DictionaryWord? ==> s.words == CorpusOrEmpty(dictionary)
    ensures s.PersonName? ==> s.names == CorpusOrEmpty(names)
    ensures !s.DictionaryWord? && !s.PersonName? ==> s == Fallback
  {
    var words, people := CorpusOrEmpty(dictionary), CorpusOrEmpty(names);
    SelectCases(mode, words, people);
    Select(mode, words, people)
  }

  /** A sound strategy only produces candidates that reload as themselves. */
  lemma GenerateIsEntry(s: Strategy, d: Draws)
    requires Usable(s) && Sound(s) && Fits(s, d)
    ensures IsEntry(Generate(s, d))
  {
    match s
    case UniformRandom(minLen, maxLen) =>
      RandomPasswordIsEntry(minLen, maxLen, d.lenDraw, d.charDraws);
    case DictionaryWord(words) =>
      SuffixedIsEntry(words, d.pick, d.number);
    case PersonName(names) =>
      SuffixedIsEntry(names, d.pick, d.number);
  }

  /** One worker iteration: the draws of its generation and the I/O result
      of its save. */
  datatype Step = Step(draws: Draws, io: Io)

  predicate StepsFit(s: Strategy, steps: seq<Step>) {
    forall i :: 0 <= i < |steps| ==> Fits(s, steps[i].draws)
  }

  /** The submissions the steps make under the strategy. */
  function Submissions(s: Strategy, steps: seq<Step>): (subs: seq<Submission>)
    requires Usable(s) && StepsFit(s, steps)
    ensures |subs| == |steps|
    ensures forall i :: 0 <= i < |subs| ==>
              subs[i] == Submission(Generate(s, steps[i].draws), steps[i].io)
  {
    if steps == [] then []
    else
      var last := steps[|steps| - 1];
      Submissions(s, steps[..|steps| - 1]) + [Submission(Generate(s, last.draws), last.io)]
  }

  /** A finite stretch of the workers' loops, in the order they took the
      mutex: one outcome per iteration, each the outcome of saving that
      iteration's candidate on the store the earlier iterations left; the
      file grows by exactly the recorded candidates; and every candidate
      whose write succeeded is in the set afterwards. The recorded
      candidates are exactly those whose save reported Recorded, and the set
      grows by exactly them. */
  function Work(store: Store, s: Strategy, steps: seq<Step>): (t: Trace)
    requires Usable(s) && StepsFit(s, steps)
    ensures |t.outcomes| == |steps|
    ensures t.final.file == store.file + JoinLines(t.recorded)
    ensures var subs := Submissions(s, steps);
            forall i :: 0 <= i < |steps| ==>
              t.outcomes[i] == Save(Run(store, subs[..i]).final, subs[i].candidate, subs[i].io).outcome
    ensures var subs := Submissions(s, steps);
            forall i :: 0 <= i < |steps| && subs[i].io == Writes ==> subs[i].candidate in t.final.seen
    ensures t.recorded == RecordedOf(Submissions(s, steps), t.outcomes)
    ensures t.final.seen == store.seen + (set x | x in t.recorded)
  {
    var subs := Submissions(s, steps);
    RunKeepsEveryWrite(store, subs);
    RunRecordsRecordedOutcomes(store, subs);
    RunRecordsNew(store, subs);
    forall i | 0 <= i < |steps|
      ensures Run(store, subs).outcomes[i] == Save(Run(store, subs[..i]).final, subs[i].candidate, subs[i].io).outcome
    {
      RunOutcomeIsSave(store, subs, i);
    }
    Run(store, subs)
  }

  /** The program's dedup guarantee: starting from an absent wordlist or a
      readable one ending in a line feed, after any number of worker
      iterations the file scans back as its original lines followed by the
      recorded candidates, those are pairwise distinct and were not in the
      file before, and reloading the file gives the live seen-set. */
  lemma WorkKeepsWordlistConsistent(wordlist: Wordlist, dictionary: FileRead, names: FileRead,
                                    mode: string, steps: seq<Step>)
    requires SafeStart(wordlist)
    requires StepsFit(Launch(mode, dictionary, names), steps)
    ensures var start := Startup(wordlist);
            var t := Work(start, Launch(mode, dictionary, names), steps);
            && Consistent(t.final)
            && ScanLines(t.final.file) == ScanLines(start.file) + t.recorded
            && Distinct(t.recorded)
            && (forall x :: x in t.recorded ==> x !in start.seen)
  {
    var start := Startup(wordlist);
    var s := Launch(mode, dictionary, names);
    var subs := Submissions(s, steps);
    forall i | 0 <= i < |subs|
      ensures IsEntry(subs[i].candidate)
    {
      GenerateIsEntry(s, steps[i].draws);
    }
    RunKeepsConsistent(start, subs);
    RunAppendsRecordedLines(start, subs);
    RunRecordsNew(start, subs);
  }
}

=== FILE: seqs.dfy ===
/** Small facts about sequence concatenation that the solver does not find
    on its own inside larger proofs. */
module Seqs {
  lemma AppendAssoc<T>(a: seq<T>, b: seq<T>, c: seq<T>)
    ensures a + (b + c) == a + b + c
  {
  }

  lemma SnocSplit<T>(s: seq<T>)
    requires s != []
    ensures s[..|s| - 1] + [s[|s| - 1]] == s
  {
  }

  lemma AppendEmpty<T>(s: seq<T>)
    ensures s + [] == s && [] + s == s
  {
  }
}

=== FILE: text.dfy ===
/** Character classes and the string primitives the program relies on:
    whitespace trimming as Go's strings.TrimSpace performs it, and the
    zero-padded four-digit decimal rendering of fmt's "%04d". */
module Text {

  /** Unicode White_Space, the set Go's unicode.IsSpace accepts: tab, line
      feed, vertical tab, form feed, carriage return, space, NEL, NBSP and the
      non-Latin-1 space separators. */
  predicate IsSpace(c: char) {
    var n := c as int;
    || n == 0x20
    || (0x09 <= n <= 0x0D)
    || n == 0x85
    || n == 0xA0
    || n == 0x1680
    || (0x2000 <= n <= 0x200A)
    || n == 0x2028
    || n == 0x2029
    || n == 0x202F
    || n == 0x205F
    || n == 0x3000
  }

  predicate AllSpace(s: string) {
    forall i :: 0 <= i < |s| ==> IsSpace(s[i])
  }

  /** Neither starts nor ends with whitespace. */
  predicate Trimmed(s: string) {
    s == [] || (!IsSpace(s[0]) && !IsSpace(s[|s| - 1]))
  }

  /** A string the wordlist loader can produce: non-empty, trimmed and on a
      single line. These survive an append-and-reload unchanged. */
  predicate IsEntry(p: string) {
    p != [] && Trimmed(p) && SingleLine(p)
  }

  /** Contains no line feed. */
  predicate SingleLine(s: string) {
    forall k :: 0 <= k < |s| ==> s[k] != '\n'
  }

  /** Drops leading whitespace. */
  function TrimLeft(s: string): (r: string)
    ensures |r| <= |s| && r == s[|s| - |r|..]
    ensures r == [] || !IsSpace(r[0])
  {
    if s != [] && IsSpace(s[0]) then
      TrimLeft(s[1..])
    else
      s
  }

  /** Drops trailing whitespace. */
  function TrimRight(s: string): (r: string)
    ensures |r| <= |s| && r == s[..|r|]
    ensures r == [] || !IsSpace(r[|r| - 1])
  {
    if s != [] && IsSpace(s[|s| - 1]) then
      TrimRight(s[..|s| - 1])
    else
      s
  }

  /** strings.TrimSpace. */
  function Trim(s: string): (r: string)
    ensures Trimmed(r) && |r| <= |s|
  {
    TrimRight(TrimLeft(s))
  }

  /** TrimLeft cuts away only whitespace. */
  lemma {:induction false} TrimLeftCutsSpaces(s: string)
    ensures AllSpace(s[..|s| - |TrimLeft(s)|])
    decreases |s|
  {
    if s != [] && IsSpace(s[0]) {
      TrimLeftCutsSpaces(s[1..]);
      var k := |s| - |TrimLeft(s)|;
      assert s[1..][..k - 1] == s[1..k];
    }
  }

  /** TrimRight cuts away only whitespace. */
  lemma {:induction false} TrimRightCutsSpaces(s: string)
    ensures AllSpace(s[|TrimRight(s)|..])
    decreases |s|
  {
    if s != [] && IsSpace(s[|s| - 1]) {
      TrimRightCutsSpaces(s[..|s| - 1]);
      var k := |TrimRight(s)|;
      assert s[..|s| - 1][k..] == s[k..|s| - 1];
    }
  }

  /** The trimmed string is the middle of `s`, with only whitespace cut away
      on either side. */
  lemma TrimIsInfix(s: string)
    ensures var r := Trim(s);
            exists i :: 0 <= i <= |s| - |r| && r == s[i..i + |r|]
                        && AllSpace(s[..i]) && AllSpace(s[i + |r|..])
  {
    var l := TrimLeft(s);
    var r := TrimRight(l);
    var i := |s| - |l|;
    TrimLeftCutsSpaces(s);
    TrimRightCutsSpaces(l);
    assert l == s[i..] && AllSpace(s[..i]);
    assert r == l[..|r|] && AllSpace(l[|r|..]);
    assert s[i..][..|r|] == s[i..i + |r|];
    assert l[|r|..] == s[i + |r|..];
    assert r == s[i..i + |r|] && AllSpace(s[..i]) && AllSpace(s[i + |r|..]);
  }

  lemma {:induction false} TrimLeftSkipsSpaces(a: string, t: string)
    requires AllSpace(a)
    ensures TrimLeft(a + t) == TrimLeft(t)
    decreases |a|
  {
    if a != [] {
      var s := a + t;
      assert IsSpace(a[0]) && s[0] == a[0];
      assert s[1..] == a[1..] + t;
      assert TrimLeft(s) == TrimLeft(s[1..]);
      assert AllSpace(a[1..]);
      TrimLeftSkipsSpaces(a[1..], t);
    } else {
      assert a + t == t;
    }
  }

  lemma {:induction false} TrimRightSkipsSpaces(t: string, b: string)
    requires AllSpace(b)
    ensures TrimRight(t + b) == TrimRight(t)
    decreases |b|
  {
    if b != [] {
      var s := t + b;
      assert IsSpace(b[|b| - 1]) && s[|s| - 1] == b[|b| - 1];
      assert s[..|s| - 1] == t + b[..|b| - 1];
      assert TrimRight(s) == TrimRight(s[..|s| - 1]);
      assert AllSpace(b[..|b| - 1]);
      TrimRightSkipsSpaces(t, b[..|b| - 1]);
    } else {
      assert t + b == t;
    }
  }

  /** Trim is determined by its specification: whatever whitespace surrounds a
      trimmed string, trimming recovers exactly that string. */
  lemma TrimOfPadded(a: string, m: string, b: string)
    requires AllSpace(a) && AllSpace(b) && Trimmed(m)
    ensures Trim(a + m + b) == m
  {
    assert a + m + b == a + (m + b);
    TrimLeftSkipsSpaces(a, m + b);
    if m == [] {
      assert m + b == b;
      assert TrimLeft(b) == [];
    } else {
      assert TrimLeft(m + b) == m + b;
      TrimRightSkipsSpaces(m, b);
    }
  }

  /** A string with no surrounding whitespace trims to itself. */
  lemma TrimOfTrimmed(p: string)
    requires Trimmed(p)
    ensures Trim(p) == p
  {
    assert [] + p + [] == p;
    TrimOfPadded([], p, []);
  }

  lemma TrimIdempotent(s: string)
    ensures Trim(Trim(s)) == Trim(s)
  {
    TrimOfTrimmed(Trim(s));
  }

  /** A line trims to the empty string exactly when it is whitespace only. */
  lemma TrimEmptyIffBlank(s: string)
    ensures Trim(s) == [] <==> AllSpace(s)
  {
    if AllSpace(s) {
      assert s + [] + [] == s;
      TrimOfPadded(s, [], []);
    }
    if Trim(s) == [] {
      var l := TrimLeft(s);
      var i := |s| - |l|;
      TrimLeftCutsSpaces(s);
      TrimRightCutsSpaces(l);
      assert AllSpace(l) by {
        assert l[0..] == l;
      }
      assert s == s[..i] + l;
    }
  }

  /** Two entries written one after the other without a separator form an
      entry. */
  lemma ConcatIsEntry(a: string, p: string)
    requires IsEntry(a) && IsEntry(p)
    ensures IsEntry(a + p)
  {
    var m := a + p;
    assert m[0] == a[0] && m[|m| - 1] == p[|p| - 1];
    forall k | 0 <= k < |m|
      ensures m[k] != '\n'
    {
      if k < |a| {
        assert m[k] == a[k];
      } else {
        assert m[k] == p[k - |a|];
      }
    }
  }

  /** Trimming never introduces a line break. */
  lemma TrimKeepsSingleLine(s: string)
    requires SingleLine(s)
    ensures SingleLine(Trim(s))
  {
    var l := TrimLeft(s);
    var i := |s| - |l|;
    forall k | 0 <= k < |l|
      ensures l[k] != '\n'
    {
      assert l[k] == s[i + k];
    }
    var r := TrimRight(l);
    forall k | 0 <= k < |r|
      ensures r[k] != '\n'
    {
      assert r[k] == l[k];
    }
  }

  predicate IsDigit(c: char) {
    '0' <= c <= '9'
  }

  predicate AllDigits(s: string) {
    forall i :: 0 <= i < |s| ==> IsDigit(s[i])
  }

  function DigitChar(d: int): (c: char)
    requires 0 <= d <= 9
    ensures IsDigit(c) && c as int - '0' as int == d
  {
    ('0' as int + d) as char
  }

  /** The number a string of decimal digits denotes, most significant first. */
  function DecimalValue(s: string): nat
    requires AllDigits(s)
  {
    if s == [] then 0
    else DecimalValue(s[..|s| - 1]) * 10 + DigitValue(s[|s| - 1])
  }

  /** fmt's "%04d" for a value in [0, 9999]: exactly four digits, zero-padded,
      most significant first. */
  function Pad4(n: int): (r: string)
    requires 0 <= n <= 9999
    ensures |r| == 4 && AllDigits(r)
    ensures DecimalValue(r) == n
  {
    var q3 := n / 10;
    var q2 := q3 / 10;
    var q1 := q2 / 10;
    assert n == q3 * 10 + n % 10 && q3 == q2 * 10 + q3 % 10 && q2 == q1 * 10 + q2 % 10;
    var r := [DigitChar(q1), DigitChar(q2 % 10), DigitChar(q3 % 10), DigitChar(n % 10)];
    FourDigitValue(r);
    r
  }

  /** Every four-digit string is the rendering of the value it denotes, so
      Pad4 is a bijection between [0, 9999] and the four-digit strings. */
  lemma Pad4Onto(s: string)
    requires |s| == 4 && AllDigits(s)
    ensures DecimalValue(s) <= 9999
    ensures Pad4(DecimalValue(s)) == s
  {
    FourDigitValue(s);
    var d0, d1, d2, d3 := DigitValue(s[0]), DigitValue(s[1]), DigitValue(s[2]), DigitValue(s[3]);
    var n := DecimalValue(s);
    var q2 := d0 * 10 + d1;
    var q3 := q2 * 10 + d2;
    assert n == q3 * 10 + d3;
    assert n / 10 == q3 && n % 10 == d3;
    assert q3 / 10 == q2 && q3 % 10 == d2;
    assert q2 / 10 == d0 && q2 % 10 == d1;
    var r := Pad4(n);
    assert r[0] == s[0] && r[1] == s[1] && r[2] == s[2] && r[3] == s[3];
  }

  /** The value of a decimal digit character. */
  function DigitValue(c: char): int {
    c as int - '0' as int
  }

  /** Positional value of a four-digit string. */
  lemma FourDigitValue(s: string)
    requires |s| == 4 && AllDigits(s)
    ensures DecimalValue(s) == ((DigitValue(s[0]) * 10 + DigitValue(s[1])) * 10 + DigitValue(s[2])) * 10 + DigitValue(s[3])
  {
    assert s[..3][..2] == s[..2];
    assert s[..2][..1] == s[..1];
    assert s[..1][..0] == [];
    assert DecimalValue(s[..1]) == DigitValue(s[0]);
    assert DecimalValue(s[..2]) == DigitValue(s[0]) * 10 + DigitValue(s[1]);
    assert DecimalValue(s[..3]) == DecimalValue(s[..2]) * 10 + DigitValue(s[2]);
  }
}
